=== FILE: README.md ===
# Chat session model

A Dafny model of the conversation logic of a browser chat client (`script.js`).
The client keeps an application state: a map of conversations keyed by id, plus
the id of the active one. Each conversation has a title, a message list that
starts with a system prompt, and a last-modified time. The model covers the
handlers that change this state:

- creating, switching and deleting conversations;
- appending a message;
- sending a user message, with its one-time title derivation;
- turning the outcome of a completion request into the assistant reply;
- regenerating a reply and editing a past message;
- restoring the state at start-up;
- the Markdown export and its file name.

Every handler is a pure function from one state to the next. Clock readings
(`Date.now()`) and the key order `Object.keys` enumerates are parameters. The
outcome of a completion request is an input value.

Modules, one file each:

- `Strings` (`strings.dfy`): JavaScript white space, `trim`, lower-casing of
  ASCII letters, decimal rendering of integers.
- `State` (`state.dfy`): the data model (a title is text, or the click event
  the "New chat" button passes in its place), JavaScript truthiness of `activeChatId`,
  the `chats[null]` lookup of key `"null"`, and the session invariant `Valid`
  (`activeChatId` is set and names an existing conversation).
- `Session` (`session.dfy`): `createNewChat`, `switchChat`, `deleteChat`,
  `addMessageToChat`, `loadState`/`saveState`.
- `Conversation` (`conversation.dfy`): `handleFormSubmit`, the `done`/`fail`
  callbacks of `fetchAIResponse`, `handleRegenerate`, the save branch of
  `handleEdit`.
- `Export` (`export.dfy`): `exportChatToMarkdown`.
- `Machine` (`machine.dfy`): start-up followed by any sequence of user
  actions, on the page as wired and on the page with the two wiring faults
  under "Findings" corrected. From the corrected start-up, the session
  invariant, the system prompt's place at the head of every conversation, and
  the titles of conversations that hold a user message are kept throughout.
  From the start-up as written, the session invariant holds exactly when the
  stored state does not name an inherited property as its active conversation.

## Model

| member | source | states |
|---|---|---|
| Strings.Trim | script.js:304 | the result has no white space at either end and is no longer than the input |
| Strings.TrimIsInfix | script.js:304 | trimming keeps a contiguous piece of the input, and only white space surrounds that piece |
| Strings.TrimIdempotent | script.js:441 | trimming already-trimmed text changes nothing |
| Strings.TrimEmptyIff | script.js:305 | the trimmed input is empty exactly when the input is all white space, so blank input is rejected |
| Strings.NatToDecimal | script.js:144 | the decimal rendering of a timestamp is non-empty, all digits and has no leading zero |
| Strings.DecimalRoundTrip | script.js:144 | reading the decimal rendering back gives the number |
| Strings.IntToDecimalInjective | script.js:144 | different clock readings render differently |
| Session.ChatIdAt | script.js:144 | a new conversation's id starts with `chat-` |
| Session.ChatIdAtInjective | script.js:144 | conversations created at different times get different ids |
| Session.Create | script.js:143-151 | one conversation is added under the new id, seeded with the system prompt, titled and stamped as given, and made active; the others are untouched |
| Session.Switch | script.js:156-158 | only `activeChatId` moves; re-selecting the active conversation is a no-op; `activeChatId` is valid exactly when the id exists |
| Session.MostRecentIndex | script.js:172-177 | the head of the key order stably sorted newest first: a maximal `lastModified`, with no earlier key as recent |
| Session.Delete | script.js:171-182 | the conversation is removed; the most recently modified survivor (first in key order on ties) becomes active; with no survivor the map is a single fresh "New Conversation" |
| Session.AppendTo | script.js:373-385 | one timestamped message is pushed onto the addressed conversation and its `lastModified` is bumped; nothing else changes; a missing conversation leaves the state as it is |
| Session.AddMessage | script.js:373-385 | the message goes to the conversation `activeChatId` names (a null `activeChatId` reads key "null"); without one the state is unchanged |
| Session.NewChatFromButton | script.js:532 | as wired, the new conversation's title is the click event, not text; it holds only the system prompt and becomes active |
| Session.NewChatFromButtonFixed | script.js:143 | the intended button: a seeded conversation titled "New Conversation" becomes active |
| Session.ButtonTitleDiffersFromDefault | script.js:532 | as wired, the button never produces the default title; the title shows as "[object Object]" |
| Session.Restore | script.js:46-74 | corrected: anything but an object with an object `chats` resets to the empty state; otherwise the stored map is adopted, a truthy `activeChatId` naming a stored chat is kept, and any other value moves to the first key (null when the map is empty) |
| Session.Load | script.js:46-81 | corrected: after start-up `activeChatId` is truthy and names a conversation; a reset store yields a single "Welcome Chat"; stored conversations survive; a usable restored state is kept as is; when the restored `activeChatId` is falsy, exactly one "Welcome Chat" is added to the restored conversations and made active |
| Session.RestoreAsWritten | script.js:46-65 | as written, the dangling-id test also accepts names inherited from `Object.prototype`, so such an id is kept |
| Session.LoadAsWritten | script.js:46-81 | as written, start-up keeps any restored `activeChatId` that passed that test |
| Session.InheritedIdSurvivesLoad | script.js:60-63 | as written, a stored `activeChatId` of "constructor" survives start-up although it names no conversation |
| Session.LoadAsWrittenAgrees | script.js:46-81 | start-up as written and corrected start-up give the same state unless the stored active id is an inherited name that is not a stored key, next to stored conversations |
| Session.LoadAsWrittenValidIff | script.js:60-79 | start-up as written leaves `activeChatId` naming a conversation exactly when the stored state holds no such inherited id |
| Session.OwnKeyTestRepairsInheritedId | script.js:60-64 | corrected: with the own-key test, the same stored value starts on its first stored conversation |
| Session.SaveLoadRoundTrip | script.js:43-65 | a saved state whose `activeChatId` is truthy and names a conversation comes back unchanged from loading |
| Session.EmptyActiveIdMovesOnReload | script.js:60-64 | a state whose active conversation sits under the empty key does not come back: the empty id is falsy, so reloading moves `activeChatId` to the first key |
| Session.LoadIdempotent | script.js:43-81 | saving what start-up produced and starting up again changes nothing |
| Conversation.TitleFrom | script.js:317-318 | a derived title is at most 33 characters; it ends in `...` exactly when the text is longer than 30; short text is kept whole, and long text keeps its first 30 characters |
| Conversation.Record | script.js:311-318 | the user message is appended to the active conversation, and its title is derived from the text only when it had no user message before |
| Conversation.Submit | script.js:302-325 | a request is issued exactly when the trimmed input is non-blank and `activeChatId` is truthy and names a conversation; then the trimmed text is appended and the title set once; otherwise nothing changes |
| Conversation.TitleDerivedOnce | script.js:312-318 | once a message has been sent, a later send keeps the conversation's title |
| Conversation.ReplyText | script.js:339-359 | non-empty content becomes the trimmed content; missing or empty content becomes the malformed-response error; a failure carries the server's message or the network notice, after the error marker |
| Conversation.FailuresAreMarked | script.js:343-359 | every reply that is not real content starts with the error marker and says more |
| Conversation.Complete | script.js:339-375 | as written, the reply is appended to whichever conversation is active when the outcome arrives |
| Conversation.CompleteInto | script.js:339-385 | corrected: the reply is appended to the conversation that asked, and a deleted requester gets nothing |
| Conversation.SwitchDivertsReply | script.js:156-158 | as written, switching while a request is in flight leaves the asker without a reply and gives it to the other conversation |
| Conversation.ReplyStaysWithRequester | script.js:339-359 | corrected: switching in between does not change where the reply lands |
| Conversation.Regenerate | script.js:390-406 | no request when there is no active conversation or it has fewer than two messages; otherwise a trailing assistant reply is popped, anything else is kept, and a request is issued |
| Conversation.RegenerateRetractsReply | script.js:395-397 | regenerating right after a reply restores the messages as they were before it |
| Conversation.RegenerateKeepsUserMessages | script.js:395-403 | regenerating never removes a user message |
| Conversation.Edit | script.js:440-451 | new non-blank text that differs from the current content replaces it, restamps it, truncates everything after it and issues a request; otherwise nothing changes |
| Conversation.EditTwiceIsEditOnce | script.js:441-442 | saving the same edit again is a no-op |
| Export.BuildMarkdown | script.js:474-483 | the accumulating loop produces exactly the heading followed by one block per message after the system prompt |
| Export.MarkdownGrowsByOneBlock | script.js:475-482 | appending a message appends exactly its block to the export |
| Export.CollapseSpaces | script.js:495 | after collapsing no white space remains; over retained characters only word characters and `-` remain |
| Export.CollapseNoSpace | script.js:495 | text without white space is left unchanged |
| Export.CollapseRun | script.js:495 | each maximal run of white space becomes exactly one `_` in its place, and the text on either side is collapsed on its own |
| Export.FileStem | script.js:493-496 | the stem holds only lower-case letters, digits, `_` and `-` |
| Export.FileName | script.js:493-496 | the download name ends in `.md`, and only stem characters precede it |
| Export.FileStemKeepsLettersAndDigits | script.js:493-496 | the file name keeps every ASCII letter, digit and hyphen of the title, in order and lower-cased |
| Export.ExportChat | script.js:467-506 | nothing is exported exactly when there is no active conversation, it holds only the prompt, or its title is not text (building the file name throws and the `catch` only alerts); otherwise the text starts with the title heading and the file name comes from the title |
| Machine.Step | script.js:531-583 | every user action keeps the session invariant, both on the page as wired (the button at line 532 and the reply callbacks at lines 373-375) and on the corrected page |
| Machine.RunKeepsValid | script.js:142-186 | any feasible sequence of actions keeps the invariant |
| Machine.AlwaysAConversation | script.js:76-81 | after the corrected start-up and any actions, at least one conversation exists and `activeChatId` names one |
| Machine.AsWrittenAlwaysAConversation | script.js:46-81 | on the page exactly as written, start-up included, `activeChatId` names a conversation after any actions unless the stored state holds an inherited id |
| Machine.StepKeepsSeededAndTitles | script.js:224-227 | every allowed action keeps the system prompt first in every conversation; no conversation appears except under the id the action creates; and a conversation that held a user message still holds one and keeps its title, unless the action recreates its id |
| Machine.EditKeepsSeededAndTitles | script.js:440-448 | an edit of a user message keeps the system prompt and the edited user message, so the title stays |
| Machine.RegenKeepsSeededAndTitles | script.js:390-397 | regenerating keeps the system prompt and every user message, so the title stays |
| Machine.RunKeepsSeeded | script.js:142-186 | any feasible sequence of actions keeps the system prompt first in every conversation |
| Machine.RunKeepsTitle | script.js:312-318 | over any run that never recreates its id, a conversation holding a user message keeps its title for as long as it exists |
| Machine.AlwaysSeeded | script.js:76-81 | after the corrected start-up from a store whose conversations start with the system prompt, every conversation keeps it first after any actions |
| Machine.DivertedReplyBlocksExport | script.js:485-506 | as wired, a reply diverted into a conversation opened from the button gives it two messages but no export; with the corrected button the same sequence exports |
| Machine.FirstExchange | script.js:302-342 | from an empty store, a short first question becomes the title, and the conversation holds the prompt, the question and the answer |

## Left out

- The HTTP proxy script (`proxy.php`) and the request itself. The history the request sends is the active conversation's message list, and the outcome is an input (`Conversation.Outcome`).
- DOM rendering, Markdown rendering, syntax highlighting, the copy buttons, the sidebar and the textarea resizing. They do not change the state.
- `localStorage` and `JSON`: storage is abstracted as `Session.Stored`. `Session.Save` is the value that `JSON.parse(JSON.stringify(state))` gives back when `chats` is a plain object, which is the only container the model has.
- `Session.SaveLoadRoundTrip`: a stored `chats` that is an array is not modelled. It passes the shape check at script.js:52-57, because an array is truthy and of type "object", and start-up adopts it. Conversations created afterwards, the start-up "Welcome Chat" included, are non-index properties that `JSON.stringify` drops. So with such a store, every conversation created after start-up is lost on reload, and the round trip does not hold.
- `Session.LoadIdempotent`: for the same reason, a store whose `chats` is an array (for example `{"chats":[]}`) is not covered. There, every start-up creates a new "Welcome Chat", because the previous one was never saved.
- `Session.Load`: after start-up, every property read `chats[id]` in the other handlers is modelled as an own-key lookup. With the corrected own-key test at start-up, only own keys can become active, so the inherited names matter only at start-up.
- `Session.Save`: the JSON form of a click-event title is not modelled. A saved event object comes back as a plain object, which is still not text, so the model keeps it as a click-event title.
- `Session.Load`: stored values that are not strings (a numeric `activeChatId`, malformed chat records) are not modelled. Conversations are assumed to have the model's shape, and the code does not check them either.
- The confirmation dialog of `deleteChat`: `Session.Delete` models the confirmed branch, and a refusal changes nothing. The `alert`s are also left out.
- Concurrency of the AJAX callbacks. A reply is a separate action (`Machine.Action.Reply`) that can arrive after any other action.
- Clock readings: `createNewChat`, `addMessageToChat` and the edit handler each read `Date.now()` twice. The model uses one reading per handler, so `lastModified` equals the timestamp just written.
- `Machine.Allowed`: the regenerate button is rendered only on the last message when it is an assistant reply. The model allows regeneration in any state, and `Conversation.Regenerate` handles every case.
- The `"bot"` role alias in `addMessageToChat`: no caller passes it.
- `Conversation.TitleFrom`: `substring(0, 30)` counts UTF-16 code units, while the model counts characters. They agree on text without astral-plane characters.
- `Export.BuildMarkdown`: `toLocaleString` depends on the locale, so rendering a timestamp is a parameter. The `.text()` round trip is the identity, so content is copied unchanged.
- `Export.FileStem`: lower-casing is modelled for ASCII letters only. Any other letter has already been removed by the preceding `[^\w\s-]` filter.
- `Conversation.Edit`: the click that opens the editor and the save are collapsed into one step, so the message being compared is the one current at save time.
- `Conversation.ReplyText`: the `catch` branch of the failure callback, which falls back to `statusText`, cannot be reached, because reading `responseJSON` with optional chaining does not throw.
- Handlers that would throw (a submit whose `activeChatId` names no conversation, a delete of an unknown id) are modelled as leaving the state unchanged. The exception stops them before any change.

## Findings

| source | as written | input that shows it | evidently intended | confidence | as-written member | corrected member |
|---|---|---|---|---|---|---|
| script.js:532 | the "New chat" button is bound directly to `createNewChat`, so the click event becomes the title | any click on the button: the title is the event object, shown as "[object Object]"; once a reply lands there, exporting it fails because the title has no `replace` | a new conversation titled "New Conversation" | not executed | Session.NewChatFromButton, Session.ButtonTitleDiffersFromDefault, Machine.DivertedReplyBlocksExport | Session.NewChatFromButtonFixed |
| script.js:373-375 | the reply callbacks append to `chats[activeChatId]` as it stands when the response arrives | send in conversation A, select B in the sidebar before the reply arrives: B gets A's answer and A has none | the reply lands in the conversation that sent the request | not executed | Conversation.Complete, Conversation.SwitchDivertsReply | Conversation.CompleteInto, Conversation.ReplyStaysWithRequester |
| script.js:60-63 | the dangling-id test reads `chats[activeChatId]` from a plain parsed object, so a name inherited from `Object.prototype` counts as present | stored `{"activeChatId":"constructor","chats":{"chat-1":{…}}}`: the id is kept, no Welcome Chat is created, and rendering the active conversation then fails | only stored conversations count, and the id moves to the first stored key | not executed | Session.RestoreAsWritten, Session.LoadAsWritten, Session.InheritedIdSurvivesLoad | Session.Restore, Session.Load, Session.OwnKeyTestRepairsInheritedId |

=== FILE: conversation.dfy ===
/**
 * The conversation handlers of script.js: sending a user message (with the
 * one-time title derivation), turning a completion outcome into the assistant
 * reply, regenerating, and editing a past message. A handler that goes on to
 * call `fetchAIResponse` reports it in `fetch`; the request carries the
 * active conversation's whole history, and its outcome arrives as a separate
 * step.
 */
module Conversation {
  import opened Strings
  import opened State
  import opened Session

  /** The state after a handler, and whether it issued a completion request. */
  datatype Transition = Transition(next: AppState, fetch: bool)

  /** The length a derived title keeps of the text before marking it truncated. */
  const TitleLength: nat := 30

  /** The title derived from a first message: its first 30 characters, followed by an ellipsis when it was longer. */
  function TitleFrom(text: string): (t: string)
    ensures |t| <= TitleLength + 3
    ensures (|t| == TitleLength + 3 && t[TitleLength..] == "...") <==> |text| > TitleLength
    ensures |text| <= TitleLength ==> t == text
    ensures |text| > TitleLength ==> t[..TitleLength] == text[..TitleLength]
  {
    if |text| > TitleLength then text[..TitleLength] + "..." else text
  }

  /**
   * The accepted branch of `handleFormSubmit` for the active conversation `k`:
   * the user message is appended, and the title is derived from it when the
   * conversation held no user message before.
   */
  function Record(s: AppState, k: Id, text: string, now: int): (r: AppState)
    requires s.activeChatId == Some(k) && k in s.chats
    ensures r.activeChatId == s.activeChatId
    ensures OthersUnchanged(s, r, k)
    ensures r.chats[k].messages == s.chats[k].messages + [Message(User, text, Some(now))]
    ensures r.chats[k].lastModified == now
    ensures r.chats[k].title == (if HasUserMessage(s.chats[k].messages) then s.chats[k].title else Text(TitleFrom(text)))
  {
    var s' := AddMessage(s, User, text, now);
    if HasUserMessage(s.chats[k].messages) then s'
    else s'.(chats := s'.chats[k := s'.chats[k].(title := Text(TitleFrom(text)))])
  }

  /**
   * `handleFormSubmit`: the trimmed input is appended as a user message to the
   * active conversation, whose title is derived from it when it held no user
   * message before. Blank input or a falsy `activeChatId` returns early; an id
   * that names no conversation makes the handler throw before any change.
   */
  function Submit(s: AppState, input: string, now: int): (t: Transition)
    ensures t.fetch <==> Trim(input) != [] && Truthy(s.activeChatId) && s.activeChatId.value in s.chats
    ensures !t.fetch ==> t.next == s
    ensures t.next.chats.Keys == s.chats.Keys
    ensures t.fetch ==>
      var k := s.activeChatId.value;
      var before := s.chats[k];
      var after := t.next.chats[k];
      && t.next.activeChatId == s.activeChatId
      && OthersUnchanged(s, t.next, k)
      && after.messages == before.messages + [Message(User, Trim(input), Some(now))]
      && after.lastModified == now
      && after.title == (if HasUserMessage(before.messages) then before.title else Text(TitleFrom(Trim(input))))
    ensures Valid(s) ==> Valid(t.next)
  {
    var text := Trim(input);
    if text == [] || !Truthy(s.activeChatId) || s.activeChatId.value !in s.chats then
      Transition(s, false)
    else
      Transition(Record(s, s.activeChatId.value, text, now), true)
  }

  /** Once a conversation's first message is sent, a second send never changes its title. */
  lemma TitleDerivedOnce(s: AppState, first: string, now: int, second: string, later: int)
    requires Submit(s, first, now).fetch
    ensures var k := s.activeChatId.value;
      var s1 := Submit(s, first, now).next;
      Submit(s1, second, later).next.chats[k].title == s1.chats[k].title
  {
    var k := s.activeChatId.value;
    var msgs := Submit(s, first, now).next.chats[k].messages;
    assert msgs[|msgs| - 1].role == User;
  }

  /** What `fetchAIResponse` learns: `choices[0].message.content` on success, `error.message` on failure. */
  datatype Outcome =
    | Done(content: Option<string>)
    | Fail(errorMessage: Option<string>)

  const ErrorMarker: string := "\U{274C} **Error:** "

  const MalformedNotice: string := "Received an empty or malformed response from the AI."

  const NetworkNotice: string := "An unknown network error occurred."

  /** The completion carried usable text (a truthy string). */
  predicate HasContent(o: Outcome) {
    o.Done? && o.content.Some? && o.content.value != []
  }

  /**
   * The assistant message an outcome becomes: the trimmed content; the
   * malformed-response notice; or the error marker followed by the server's
   * `error.message` or, when that is absent or empty, the network notice.
   */
  function ReplyText(o: Outcome): (text: string)
    ensures HasContent(o) ==> text == Trim(o.content.value)
    ensures o.Done? && !HasContent(o) ==> text == ErrorMarker + MalformedNotice
    ensures o.Fail? && o.errorMessage.Some? && o.errorMessage.value != [] ==> text == ErrorMarker + o.errorMessage.value
    ensures o.Fail? && (o.errorMessage.None? || o.errorMessage.value == []) ==> text == ErrorMarker + NetworkNotice
  {
    match o
    case Done(content) =>
      if content.Some? && content.value != [] then Trim(content.value) else ErrorMarker + MalformedNotice
    case Fail(message) =>
      ErrorMarker + (if message.Some? && message.value != [] then message.value else NetworkNotice)
  }

  /** Every failure, and every success without content, reads as an error-marked, non-blank message. */
  lemma FailuresAreMarked(o: Outcome)
    requires !HasContent(o)
    ensures var text := ReplyText(o); |text| > |ErrorMarker| && text[..|ErrorMarker|] == ErrorMarker
  {
  }

  /**
   * The `done`/`fail` callbacks as written: exactly one assistant message is
   * appended, to whichever conversation is active when the outcome arrives.
   */
  function Complete(s: AppState, o: Outcome, now: int): (r: AppState)
    ensures ActiveChat(s).None? ==> r == s
    ensures ActiveChat(s).Some? ==>
      var k := LookupKey(s.activeChatId);
      && r.activeChatId == s.activeChatId
      && OthersUnchanged(s, r, k)
      && r.chats[k].messages == s.chats[k].messages + [Message(Assistant, ReplyText(o), Some(now))]
      && r.chats[k].lastModified == now
      && r.chats[k].title == s.chats[k].title
    ensures Valid(s) ==> Valid(r)
  {
    AddMessage(s, Assistant, ReplyText(o), now)
  }

  /**
   * The reply as intended: appended to the conversation that issued the
   * request, whatever `activeChatId` says when the outcome arrives; a
   * conversation deleted in the meantime gets nothing.
   */
  function CompleteInto(s: AppState, requester: Id, o: Outcome, now: int): (r: AppState)
    ensures requester !in s.chats ==> r == s
    ensures requester in s.chats ==>
      && r.activeChatId == s.activeChatId
      && OthersUnchanged(s, r, requester)
      && r.chats[requester].messages == s.chats[requester].messages + [Message(Assistant, ReplyText(o), Some(now))]
      && r.chats[requester].lastModified == now
      && r.chats[requester].title == s.chats[requester].title
    ensures Valid(s) ==> Valid(r)
  {
    AppendTo(s, requester, Assistant, ReplyText(o), now)
  }

  /**
   * As written, switching conversations while a request is in flight sends
   * its reply to the newly selected conversation and leaves the asking one
   * without an answer.
   */
  lemma SwitchDivertsReply(s: AppState, a: Id, b: Id, o: Outcome, now: int)
    requires s.activeChatId == Some(a) && a in s.chats && b in s.chats && a != b
    ensures var r := Complete(Switch(s, b), o, now);
      && r.chats[a] == s.chats[a]
      && r.chats[b].messages == s.chats[b].messages + [Message(Assistant, ReplyText(o), Some(now))]
  {
  }

  /** With the reply addressed to its requester, switching in between changes nothing about where it lands. */
  lemma ReplyStaysWithRequester(s: AppState, a: Id, b: Id, o: Outcome, now: int)
    requires a in s.chats && b in s.chats
    ensures CompleteInto(Switch(s, b), a, o, now).chats == CompleteInto(s, a, o, now).chats
    ensures CompleteInto(Switch(s, b), a, o, now).chats[a].messages[|s.chats[a].messages|].role == Assistant
  {
  }

  function Last(msgs: seq<Message>): Message
    requires |msgs| > 0
  {
    msgs[|msgs| - 1]
  }

  /**
   * `handleRegenerate`: with fewer than two messages (or no active
   * conversation) nothing happens; otherwise a trailing assistant reply is
   * dropped, any other trailing message is kept, and a request is issued.
   */
  function Regenerate(s: AppState): (t: Transition)
    ensures !t.fetch <==> ActiveChat(s).None? || |ActiveChat(s).value.messages| < 2
    ensures !t.fetch ==> t.next == s
    ensures t.next.chats.Keys == s.chats.Keys
    ensures t.fetch ==>
      var k := LookupKey(s.activeChatId);
      var before := s.chats[k].messages;
      var after := t.next.chats[k].messages;
      && t.next.activeChatId == s.activeChatId
      && OthersUnchanged(s, t.next, k)
      && t.next.chats[k] == s.chats[k].(messages := after)
      && |after| >= 1
      && (Last(before).role == Assistant ==> after == before[..|before| - 1])
      && (Last(before).role != Assistant ==> after == before)
    ensures Valid(s) ==> Valid(t.next)
  {
    var k := LookupKey(s.activeChatId);
    if k !in s.chats || |s.chats[k].messages| < 2 then
      Transition(s, false)
    else
      var c := s.chats[k];
      if Last(c.messages).role == Assistant then
        Transition(s.(chats := s.chats[k := c.(messages := c.messages[..|c.messages| - 1])]), true)
      else
        Transition(s, true)
  }

  /** Regenerating right after a reply retracts exactly that reply and asks again. */
  lemma RegenerateRetractsReply(s: AppState, o: Outcome, now: int)
    requires ActiveChat(s).Some? && |ActiveChat(s).value.messages| >= 1
    ensures var t := Regenerate(Complete(s, o, now));
      && t.fetch
      && ActiveChat(t.next).Some?
      && ActiveChat(t.next).value.messages == ActiveChat(s).value.messages
  {
    var k := LookupKey(s.activeChatId);
    var before := s.chats[k].messages;
    var after := Complete(s, o, now).chats[k].messages;
    assert after[..|after| - 1] == before;
  }

  /** Regenerating never drops a user message, so a conversation keeps its derived title afterwards. */
  lemma RegenerateKeepsUserMessages(s: AppState)
    requires ActiveChat(s).Some? && HasUserMessage(ActiveChat(s).value.messages)
    ensures ActiveChat(Regenerate(s).next).Some?
    ensures HasUserMessage(ActiveChat(Regenerate(s).next).value.messages)
  {
    var t := Regenerate(s);
    var before := ActiveChat(s).value.messages;
    var i :| 0 <= i < |before| && before[i].role == User;
    if t.fetch && Last(before).role == Assistant {
      assert i < |before| - 1;
      assert ActiveChat(t.next).value.messages[i] == before[i];
    }
  }

  /**
   * The save branch of `handleEdit` for the message at `index` of conversation
   * `chatId`: non-blank trimmed text that differs from the current content
   * replaces it, restamps it, discards every later message and issues a
   * request; anything else leaves the conversation as it was.
   */
  function Edit(s: AppState, chatId: Id, index: nat, input: string, now: int): (t: Transition)
    ensures t.fetch <==>
      && chatId in s.chats
      && index < |s.chats[chatId].messages|
      && Trim(input) != []
      && Trim(input) != s.chats[chatId].messages[index].content
    ensures !t.fetch ==> t.next == s
    ensures t.next.chats.Keys == s.chats.Keys
    ensures t.fetch ==>
      var before := s.chats[chatId];
      var after := t.next.chats[chatId];
      && t.next.activeChatId == s.activeChatId
      && OthersUnchanged(s, t.next, chatId)
      && |after.messages| == index + 1
      && after.messages[..index] == before.messages[..index]
      && after.messages[index] == before.messages[index].(content := Trim(input), timestamp := Some(now))
      && after.lastModified == now
      && after.title == before.title
    ensures Valid(s) ==> Valid(t.next)
  {
    var text := Trim(input);
    if chatId !in s.chats || index >= |s.chats[chatId].messages| then
      Transition(s, false)
    else
      var c := s.chats[chatId];
      var m := c.messages[index];
      if text == [] || text == m.content then
        Transition(s, false)
      else
        var edited := c.messages[..index] + [m.(content := text, timestamp := Some(now))];
        Transition(s.(chats := s.chats[chatId := c.(messages := edited, lastModified := now)]), true)
  }

  /** Saving the same edit a second time is a no-op: the content is already the trimmed text. */
  lemma EditTwiceIsEditOnce(s: AppState, chatId: Id, index: nat, input: string, now: int, later: int)
    requires Edit(s, chatId, index, input, now).fetch
    ensures var s1 := Edit(s, chatId, index, input, now).next;
      Edit(s1, chatId, index, input, later) == Transition(s1, false)
  {
    var s1 := Edit(s, chatId, index, input, now).next;
    assert s1.chats[chatId].messages[index].content == Trim(input);
  }
}

=== FILE: export.dfy ===
/**
 * `exportChatToMarkdown` (script.js:467-508): the Markdown document built
 * from the active conversation and the file name derived from its title.
 * Rendering a timestamp with `toLocaleString` depends on the browser's
 * locale, so it is a parameter `showTime`; the `.text()` round trip the code
 * applies to each message returns its argument unchanged, so content is
 * copied as it is.
 */
module Export {
  import opened Strings
  import opened State

  function Speaker(r: Role): string {
    if r == User then "**You:**" else "**AI:**"
  }

  /** The line saying when a message was sent. */
  function SentLine(m: Message, showTime: Option<int> -> string): string {
    "*Sent: " + showTime(m.timestamp) + "*\n"
  }

  /** Who sent a message, its text, then a horizontal rule. */
  function Entry(m: Message): string {
    Speaker(m.role) + "\n" + m.content + "\n\n---\n\n"
  }

  /** One exported message. */
  function Block(m: Message, showTime: Option<int> -> string): string {
    SentLine(m, showTime) + Entry(m)
  }

  /** The blocks of `msgs`, in order. */
  function Blocks(msgs: seq<Message>, showTime: Option<int> -> string): string {
    if msgs == [] then [] else Block(msgs[0], showTime) + Blocks(msgs[1..], showTime)
  }

  /** The heading line: the title as it shows, as the template literal renders it. */
  function Heading(title: Title): string {
    "# " + Shown(title) + "\n\n"
  }

  /** Every message after the first, which is the system prompt. */
  function AfterPrompt(msgs: seq<Message>): seq<Message> {
    if msgs == [] then [] else msgs[1..]
  }

  /** The document: the title as a heading, then one block per message after the system prompt. */
  function Markdown(c: Chat, showTime: Option<int> -> string): string {
    Heading(c.title) + Blocks(AfterPrompt(c.messages), showTime)
  }

  lemma {:induction false} BlocksAppend(a: seq<Message>, b: seq<Message>, showTime: Option<int> -> string)
    ensures Blocks(a + b, showTime) == Blocks(a, showTime) + Blocks(b, showTime)
    decreases |a|
  {
    if a == [] {
      assert a + b == b;
    } else {
      assert (a + b)[0] == a[0];
      assert (a + b)[1..] == a[1..] + b;
      BlocksAppend(a[1..], b, showTime);
    }
  }

  lemma Regroup(a: string, b: string, c: string, d: string)
    ensures a + b + c + d == a + (b + (c + d))
  {
  }

  lemma SplitHead(a: string, t: string)
    requires a != []
    ensures a + t == [a[0]] + (a[1..] + t) && a == [a[0]] + a[1..]
  {
  }

  lemma Associate(a: string, b: string, c: string)
    ensures a + (b + c) == a + b + c
  {
  }

  /** One turn of the export loop extends the text by the next message's block. */
  lemma AppendBlock(text: string, title: Title, rest: seq<Message>, i: nat, showTime: Option<int> -> string)
    requires i < |rest| && text == Heading(title) + Blocks(rest[..i], showTime)
    ensures text + SentLine(rest[i], showTime) + Entry(rest[i]) == Heading(title) + Blocks(rest[..i + 1], showTime)
  {
    BlocksAppend(rest[..i], [rest[i]], showTime);
    assert rest[..i + 1] == rest[..i] + [rest[i]];
    assert Blocks([rest[i]], showTime) == SentLine(rest[i], showTime) + Entry(rest[i]);
    Regroup(Heading(title), Blocks(rest[..i], showTime), SentLine(rest[i], showTime), Entry(rest[i]));
  }

  /** The `forEach` loop of the export, accumulating the text with `+=`; it builds exactly `Markdown`. */
  method BuildMarkdown(c: Chat, showTime: Option<int> -> string) returns (text: string)
    ensures text == Markdown(c, showTime)
  {
    text := Heading(c.title);
    var rest := AfterPrompt(c.messages);
    var i := 0;
    while i < |rest|
      invariant 0 <= i <= |rest|
      invariant text == Heading(c.title) + Blocks(rest[..i], showTime)
    {
      AppendBlock(text, c.title, rest, i, showTime);
      text := text + SentLine(rest[i], showTime);
      text := text + Entry(rest[i]);
      i := i + 1;
    }
    assert rest[..|rest|] == rest;
  }

  /** Appending a message to a conversation appends exactly its block to the export. */
  lemma MarkdownGrowsByOneBlock(c: Chat, m: Message, showTime: Option<int> -> string)
    requires |c.messages| >= 1
    ensures Markdown(c.(messages := c.messages + [m]), showTime) == Markdown(c, showTime) + Block(m, showTime)
  {
    var c' := c.(messages := c.messages + [m]);
    assert AfterPrompt(c'.messages) == AfterPrompt(c.messages) + [m];
    BlocksAppend(AfterPrompt(c.messages), [m], showTime);
    assert Blocks([m], showTime) == Block(m, showTime);
    Associate(Heading(c.title), Blocks(AfterPrompt(c.messages), showTime), Block(m, showTime));
  }

  /** Keeps the characters satisfying `keep`, in order. */
  function Filter(keep: char -> bool, s: string): (r: string)
    ensures |r| <= |s|
    ensures forall i :: 0 <= i < |r| ==> keep(r[i])
  {
    if s == [] then [] else (if keep(s[0]) then [s[0]] else []) + Filter(keep, s[1..])
  }

  lemma {:induction false} FilterAppend(keep: char -> bool, a: string, b: string)
    ensures Filter(keep, a + b) == Filter(keep, a) + Filter(keep, b)
    decreases |a|
  {
    if a == [] {
      assert a + b == b;
    } else {
      assert (a + b)[0] == a[0];
      assert (a + b)[1..] == a[1..] + b;
      FilterAppend(keep, a[1..], b);
    }
  }

  /** Filtering by a stricter test after a looser one is filtering by the stricter one alone. */
  lemma {:induction false} FilterFilter(strict: char -> bool, loose: char -> bool, s: string)
    requires forall c :: strict(c) ==> loose(c)
    ensures Filter(strict, Filter(loose, s)) == Filter(strict, s)
    decreases |s|
  {
    if s != [] {
      FilterFilter(strict, loose, s[1..]);
      FilterAppend(strict, if loose(s[0]) then [s[0]] else [], Filter(loose, s[1..]));
    }
  }

  /** A character `[\w\s-]` keeps (the `i` flag adds nothing to these classes). */
  predicate Retained(c: char) {
    IsWordChar(c) || IsSpace(c) || c == '-'
  }

  /** A character that carries the title's meaning into the file name: an ASCII letter, a digit, or `-`. */
  predicate Significant(c: char) {
    ('a' <= c <= 'z') || ('A' <= c <= 'Z') || IsDigit(c) || c == '-'
  }

  /** A character a file stem may hold. */
  predicate IsStemChar(c: char) {
    ('a' <= c <= 'z') || IsDigit(c) || c == '_' || c == '-'
  }

  /** Every maximal run of white space becomes one underscore. */
  function CollapseSpaces(s: string): (r: string)
    ensures forall i :: 0 <= i < |r| ==> !IsSpace(r[i])
    ensures (forall i :: 0 <= i < |s| ==> Retained(s[i])) ==> forall i :: 0 <= i < |r| ==> IsWordChar(r[i]) || r[i] == '-'
    decreases |s|
  {
    if s == [] then []
    else if IsSpace(s[0]) then
      var rest := TrimStart(s);
      assert rest != s;
      "_" + CollapseSpaces(rest)
    else [s[0]] + CollapseSpaces(s[1..])
  }

  /** Text without white space passes through unchanged. */
  lemma {:induction false} CollapseNoSpace(s: string)
    requires forall i :: 0 <= i < |s| ==> !IsSpace(s[i])
    ensures CollapseSpaces(s) == s
    decreases |s|
  {
    if s != [] {
      CollapseNoSpace(s[1..]);
      assert s == [s[0]] + s[1..];
    }
  }

  lemma CollapseSpaceHead(s: string)
    requires s != [] && IsSpace(s[0])
    ensures CollapseSpaces(s) == "_" + CollapseSpaces(TrimStart(s))
  {
  }

  lemma CollapseOtherHead(c: char, t: string)
    requires !IsSpace(c)
    ensures CollapseSpaces([c] + t) == [c] + CollapseSpaces(t)
  {
    assert ([c] + t)[1..] == t;
  }

  /** A run of white space at the front of `w + b` becomes one underscore. */
  lemma CollapseLeadingRun(w: string, b: string)
    requires w != [] && AllSpace(w)
    requires b == [] || !IsSpace(b[0])
    ensures CollapseSpaces(w + b) == "_" + CollapseSpaces(b)
  {
    var s := w + b;
    assert s[..|w|] == w && s[|w|..] == b;
    TrimStartAt(s, |w|);
    CollapseSpaceHead(s);
  }

  /** Leading white space of `a`, which ends before `a` does, is dropped from `a + t` as from `a`. */
  lemma TrimStartPrefix(a: string, t: string)
    requires a != [] && !IsSpace(a[|a| - 1])
    ensures TrimStart(a) != [] && TrimStart(a + t) == TrimStart(a) + t
    ensures TrimStart(a)[|TrimStart(a)| - 1] == a[|a| - 1]
  {
    var ta := TrimStart(a);
    var k := |a| - |ta|;
    var s := a + t;
    assert s[..k] == a[..k];
    assert s[k] == ta[0];
    TrimStartAt(s, k);
    assert s[k..] == ta + t;
  }

  /** The step of `CollapseRun` past a character that is not white space. */
  lemma CollapseRunPastChar(a: string, w: string, b: string)
    requires a != [] && !IsSpace(a[0])
    requires CollapseSpaces(a[1..] + w + b) == CollapseSpaces(a[1..]) + "_" + CollapseSpaces(b)
    ensures CollapseSpaces(a + w + b) == CollapseSpaces(a) + "_" + CollapseSpaces(b)
  {
    var t := a[1..] + w + b;
    SplitHead(a, w + b);
    Associate(a[1..], w, b);
    Associate(a, w, b);
    CollapseOtherHead(a[0], t);
    CollapseOtherHead(a[0], a[1..]);
    Associate([a[0]], CollapseSpaces(a[1..]) + "_", CollapseSpaces(b));
    Associate([a[0]], CollapseSpaces(a[1..]), "_");
  }

  /** The step of `CollapseRun` past the leading white space of `a`. */
  lemma CollapseRunPastSpace(a: string, w: string, b: string)
    requires a != [] && IsSpace(a[0]) && !IsSpace(a[|a| - 1])
    requires CollapseSpaces(TrimStart(a) + w + b) == CollapseSpaces(TrimStart(a)) + "_" + CollapseSpaces(b)
    ensures CollapseSpaces(a + w + b) == CollapseSpaces(a) + "_" + CollapseSpaces(b)
  {
    var ta := TrimStart(a);
    TrimStartPrefix(a, w + b);
    assert a + w + b == a + (w + b) && ta + (w + b) == ta + w + b;
    CollapseSpaceHead(a + w + b);
    CollapseSpaceHead(a);
    Associate("_", CollapseSpaces(ta) + "_", CollapseSpaces(b));
    Associate("_", CollapseSpaces(ta), "_");
  }

  /**
   * A maximal run of white space between two pieces of text becomes one
   * underscore in its place, and each piece is collapsed on its own. With
   * `CollapseNoSpace`, this fixes the result for every input.
   */
  lemma {:induction false} CollapseRun(a: string, w: string, b: string)
    requires w != [] && AllSpace(w)
    requires a == [] || !IsSpace(a[|a| - 1])
    requires b == [] || !IsSpace(b[0])
    ensures CollapseSpaces(a + w + b) == CollapseSpaces(a) + "_" + CollapseSpaces(b)
    decreases |a|
  {
    if a == [] {
      assert a + w + b == w + b;
      CollapseLeadingRun(w, b);
    } else if !IsSpace(a[0]) {
      CollapseRun(a[1..], w, b);
      CollapseRunPastChar(a, w, b);
    } else {
      TrimStartPrefix(a, w + b);
      CollapseRun(TrimStart(a), w, b);
      CollapseRunPastSpace(a, w, b);
    }
  }

  /**
   * The file stem: the title with everything but word characters, white space
   * and hyphens removed, each run of white space turned into one underscore,
   * then lower-cased.
   */
  function FileStem(title: string): (stem: string)
    ensures forall i :: 0 <= i < |stem| ==> IsStemChar(stem[i])
  {
    LowerAll(CollapseSpaces(Filter(Retained, title)))
  }

  /** The download name: the stem and `.md`; only lower-case letters, digits, `_` and `-` precede the extension. */
  function FileName(title: string): (name: string)
    ensures |name| >= 3 && name[|name| - 3..] == ".md"
    ensures forall i :: 0 <= i < |name| - 3 ==> IsStemChar(name[i])
  {
    FileStem(title) + ".md"
  }

  lemma {:induction false} CollapseKeepsSignificant(s: string)
    ensures Filter(Significant, CollapseSpaces(s)) == Filter(Significant, s)
    decreases |s|
  {
    if s != [] {
      if IsSpace(s[0]) {
        var rest := TrimStart(s);
        var k := |s| - |rest|;
        assert CollapseSpaces(s) == "_" + CollapseSpaces(rest);
        FilterAppend(Significant, "_", CollapseSpaces(rest));
        assert Filter(Significant, "_") == [];
        CollapseKeepsSignificant(rest);
        assert s == s[..k] + rest;
        FilterAppend(Significant, s[..k], rest);
        AllSpaceInsignificant(s[..k]);
      } else {
        assert CollapseSpaces(s) == [s[0]] + CollapseSpaces(s[1..]);
        FilterAppend(Significant, [s[0]], CollapseSpaces(s[1..]));
        CollapseKeepsSignificant(s[1..]);
        assert s == [s[0]] + s[1..];
        FilterAppend(Significant, [s[0]], s[1..]);
      }
    }
  }

  lemma {:induction false} AllSpaceInsignificant(s: string)
    requires AllSpace(s)
    ensures Filter(Significant, s) == []
    decreases |s|
  {
    if s != [] {
      AllSpaceInsignificant(s[1..]);
    }
  }

  lemma LowerAllAppend(a: string, b: string)
    ensures LowerAll(a + b) == LowerAll(a) + LowerAll(b)
  {
    assert forall i :: 0 <= i < |a| ==> (a + b)[i] == a[i];
    assert forall i :: |a| <= i < |a| + |b| ==> (a + b)[i] == b[i - |a|];
  }

  /** Lower-casing neither creates nor removes a significant character. */
  lemma SignificantLower(c: char)
    ensures Significant(LowerChar(c)) == Significant(c)
  {
  }

  lemma {:induction false} LowerKeepsSignificant(s: string)
    ensures Filter(Significant, LowerAll(s)) == LowerAll(Filter(Significant, s))
    decreases |s|
  {
    if s != [] {
      var l := LowerAll(s);
      assert l == [LowerChar(s[0])] + LowerAll(s[1..]);
      assert l[0] == LowerChar(s[0]) && l[1..] == LowerAll(s[1..]);
      SignificantLower(s[0]);
      LowerKeepsSignificant(s[1..]);
      var head := if Significant(s[0]) then [s[0]] else [];
      assert LowerAll(head) == if Significant(s[0]) then [LowerChar(s[0])] else [];
      LowerAllAppend(head, Filter(Significant, s[1..]));
    }
  }

  /**
   * The file name keeps every letter, digit and hyphen of the title, in
   * order and lower-cased; everything else it drops or turns into `_`.
   */
  lemma FileStemKeepsLettersAndDigits(title: string)
    ensures Filter(Significant, FileStem(title)) == LowerAll(Filter(Significant, title))
  {
    var kept := Filter(Retained, title);
    LowerKeepsSignificant(CollapseSpaces(kept));
    CollapseKeepsSignificant(kept);
    FilterFilter(Significant, Retained, title);
  }

  datatype Document = Document(text: string, filename: string)

  /**
   * The export of the active conversation: nothing (the user is told there is
   * nothing to export) when there is no active conversation or it holds only
   * the system prompt; nothing either (the user is told the export failed)
   * when its title is not text, since building the file name calls string
   * methods on it; otherwise its Markdown text and file name.
   */
  function ExportChat(s: AppState, showTime: Option<int> -> string): (d: Option<Document>)
    ensures d.None? <==>
      || ActiveChat(s).None?
      || |ActiveChat(s).value.messages| <= 1
      || ActiveChat(s).value.title.ClickEvent?
    ensures d.Some? ==> var c := ActiveChat(s).value;
      && d.value.text == Markdown(c, showTime)
      && d.value.text[..|Heading(c.title)|] == Heading(c.title)
      && d.value.filename == FileName(c.title.text)
  {
    match ActiveChat(s)
    case None => None
    case Some(c) =>
      if |c.messages| <= 1 then None
      else match c.title
        case ClickEvent => None
        case Text(t) => Some(Document(Markdown(c, showTime), FileName(t)))
  }
}

=== FILE: machine.dfy ===
/**
 * The session as a whole: start-up followed by any sequence of the actions
 * the page offers. The page runs either as wired (the "New chat" button passes
 * its click event as the title, and a reply goes to whichever conversation is
 * active when it arrives) or corrected (default title, reply to the asker).
 * On both, from the corrected start-up and whatever the user does,
 * `activeChatId` keeps naming an existing conversation; the system prompt
 * stays first in every conversation that started with it; and a conversation
 * that holds a user message keeps its title. From the start-up as written,
 * the first holds exactly when the stored state holds no inherited id.
 */
module Machine {
  import opened Strings
  import opened State
  import opened Session
  import opened Conversation
  import opened Export

  datatype Action =
    | OpenChat(now: int)
    | SelectChat(id: Id)
    | DeleteChat(id: Id, remaining: seq<Id>, now: int)
    | Send(input: string, now: int)
    | Reply(requester: Id, outcome: Outcome, now: int)
    | Regen
    | EditMessage(chatId: Id, index: nat, input: string, now: int)

  /** The page as the code wires it, or with the "New chat" button and reply routing corrected. */
  datatype Page = AsWired | Corrected

  /**
   * What the page guarantees about an action: the sidebar only offers
   * conversations that exist, `remaining` is the key order after a removal,
   * and edit buttons are rendered only on the user messages of the active
   * conversation, never on the system prompt at position 0.
   */
  ghost predicate Allowed(s: AppState, a: Action) {
    match a
    case SelectChat(id) => id in s.chats
    case DeleteChat(id, remaining, _) => forall k :: k in remaining <==> k in s.chats && k != id
    case EditMessage(chatId, index, _, _) =>
      && s.activeChatId == Some(chatId)
      && chatId in s.chats
      && 1 <= index < |s.chats[chatId].messages|
      && s.chats[chatId].messages[index].role == User
    case _ => true
  }

  /** One action, as the handlers perform it on the given page; every one of them keeps the session invariant. */
  function Step(p: Page, s: AppState, a: Action): (r: AppState)
    requires Allowed(s, a)
    ensures Valid(s) ==> Valid(r)
  {
    match a
    case OpenChat(now) => if p == AsWired then NewChatFromButton(s, now) else NewChatFromButtonFixed(s, now)
    case SelectChat(id) => Switch(s, id)
    case DeleteChat(id, remaining, now) => Delete(s, id, remaining, now)
    case Send(input, now) => Submit(s, input, now).next
    case Reply(requester, outcome, now) =>
      if p == AsWired then Complete(s, outcome, now) else CompleteInto(s, requester, outcome, now)
    case Regen => Regenerate(s).next
    case EditMessage(chatId, index, input, now) => Edit(s, chatId, index, input, now).next
  }

  ghost predicate Feasible(p: Page, s: AppState, actions: seq<Action>)
    decreases |actions|
  {
    actions == [] || (Allowed(s, actions[0]) && Feasible(p, Step(p, s, actions[0]), actions[1..]))
  }

  function Run(p: Page, s: AppState, actions: seq<Action>): AppState
    requires Feasible(p, s, actions)
    decreases |actions|
  {
    if actions == [] then s else Run(p, Step(p, s, actions[0]), actions[1..])
  }

  lemma {:induction false} RunKeepsValid(p: Page, s: AppState, actions: seq<Action>)
    requires Valid(s) && Feasible(p, s, actions)
    ensures Valid(Run(p, s, actions))
    decreases |actions|
  {
    if actions != [] {
      RunKeepsValid(p, Step(p, s, actions[0]), actions[1..]);
    }
  }

  /** After the corrected start-up and any feasible actions, a conversation exists and `activeChatId` names one. */
  lemma AlwaysAConversation(p: Page, stored: Stored, order: seq<Id>, now: int, actions: seq<Action>)
    requires KeyOrder(stored, order)
    requires Feasible(p, Load(stored, order, now), actions)
    ensures Valid(Run(p, Load(stored, order, now), actions))
    ensures |Run(p, Load(stored, order, now), actions).chats| >= 1
  {
    var r := Run(p, Load(stored, order, now), actions);
    RunKeepsValid(p, Load(stored, order, now), actions);
    assert r.activeChatId.value in r.chats.Keys;
  }

  /**
   * The page exactly as written, start-up included: unless the stored state
   * holds an inherited id (when the empty run already fails, by
   * `LoadAsWrittenValidIff`), a conversation exists and `activeChatId` names
   * one after any feasible actions.
   */
  lemma AsWrittenAlwaysAConversation(stored: Stored, order: seq<Id>, now: int, actions: seq<Action>)
    requires KeyOrder(stored, order) && !HoldsInheritedId(stored)
    requires Feasible(AsWired, LoadAsWritten(stored, order, now), actions)
    ensures Valid(Run(AsWired, LoadAsWritten(stored, order, now), actions))
  {
    LoadAsWrittenAgrees(stored, order, now);
    RunKeepsValid(AsWired, LoadAsWritten(stored, order, now), actions);
  }

  /** Every conversation starts with the system prompt. */
  predicate SeededChats(m: map<Id, Chat>) {
    forall k :: k in m ==> |m[k].messages| >= 1 && m[k].messages[0] == SeedMessage
  }

  /** The id an action may create a conversation under: a new chat, or the replacement after deleting the last one. */
  function Created(s: AppState, a: Action): Option<Id> {
    match a
    case OpenChat(now) => Some(ChatIdAt(now))
    case DeleteChat(id, _, now) => if s.chats.Keys == {id} then Some(ChatIdAt(now)) else None
    case _ => None
  }

  /**
   * Between `s` and `r`: no conversation appears except under the created id,
   * and every other surviving conversation that held a user message still
   * holds one and keeps its title.
   */
  ghost predicate TitlesKept(s: AppState, r: AppState, created: Option<Id>) {
    && (forall k :: k in r.chats ==> k in s.chats || created == Some(k))
    && forall k :: k in s.chats && k in r.chats && created != Some(k) && HasUserMessage(s.chats[k].messages) ==>
         HasUserMessage(r.chats[k].messages) && r.chats[k].title == s.chats[k].title
  }

  /** A user message survives in any sequence that keeps the prefix up to and including it. */
  lemma UserMessageKept(before: seq<Message>, after: seq<Message>, i: nat)
    requires i < |before| && i < |after| && before[i].role == User && after[i] == before[i]
    ensures HasUserMessage(after)
  {
  }

  /** Appending keeps a user message. */
  lemma AppendKeepsUser(before: seq<Message>, m: Message)
    requires HasUserMessage(before)
    ensures HasUserMessage(before + [m])
  {
    var i :| 0 <= i < |before| && before[i].role == User;
    UserMessageKept(before, before + [m], i);
  }

  /**
   * A step that changes only the conversation at `k` keeps both properties
   * when it keeps that conversation's first message, and keeps its title
   * and a user message whenever it held one.
   */
  lemma ChangedOnlyAt(s: AppState, r: AppState, k: Id)
    requires SeededChats(s.chats) && OthersUnchanged(s, r, k) && k in s.chats
    requires |r.chats[k].messages| >= 1 && r.chats[k].messages[0] == s.chats[k].messages[0]
    requires HasUserMessage(s.chats[k].messages) ==>
      HasUserMessage(r.chats[k].messages) && r.chats[k].title == s.chats[k].title
    ensures SeededChats(r.chats) && TitlesKept(s, r, None)
  {
  }

  lemma {:induction false} SendKeepsSeededAndTitles(s: AppState, input: string, now: int)
    requires SeededChats(s.chats)
    ensures SeededChats(Submit(s, input, now).next.chats)
    ensures TitlesKept(s, Submit(s, input, now).next, None)
  {
    var t := Submit(s, input, now);
    if t.fetch {
      var k := s.activeChatId.value;
      var before := s.chats[k].messages;
      assert t.next.chats[k].messages[0] == before[0];
      if HasUserMessage(before) {
        AppendKeepsUser(before, Message(User, Trim(input), Some(now)));
      }
      ChangedOnlyAt(s, t.next, k);
    }
  }

  /** Appending to one conversation keeps the system prompt first and keeps every title. */
  lemma {:induction false} AppendKeepsSeededAndTitles(s: AppState, k: Id, role: Role, content: string, now: int)
    requires SeededChats(s.chats)
    ensures var r := AppendTo(s, k, role, content, now); SeededChats(r.chats) && TitlesKept(s, r, None)
  {
    var r := AppendTo(s, k, role, content, now);
    if k in s.chats {
      var before := s.chats[k].messages;
      assert r.chats[k].messages[0] == before[0];
      if HasUserMessage(before) {
        AppendKeepsUser(before, Message(role, content, Some(now)));
      }
      ChangedOnlyAt(s, r, k);
    }
  }

  lemma ReplyKeepsSeededAndTitles(p: Page, s: AppState, requester: Id, o: Outcome, now: int)
    requires SeededChats(s.chats)
    ensures var r := Step(p, s, Reply(requester, o, now)); SeededChats(r.chats) && TitlesKept(s, r, None)
  {
    if p == AsWired {
      AppendKeepsSeededAndTitles(s, LookupKey(s.activeChatId), Assistant, ReplyText(o), now);
    } else {
      AppendKeepsSeededAndTitles(s, requester, Assistant, ReplyText(o), now);
    }
  }

  /** Creating a conversation adds one seeded conversation and leaves every other as it was. */
  lemma CreateKeepsSeededAndTitles(s: AppState, title: Title, now: int)
    requires SeededChats(s.chats)
    ensures var r := Create(s, title, now); SeededChats(r.chats) && TitlesKept(s, r, Some(ChatIdAt(now)))
  {
    var r := Create(s, title, now);
    var id := ChatIdAt(now);
    assert r.chats[id].messages[0] == SeedMessage;
    assert forall k :: k in r.chats && k != id ==> r.chats[k] == s.chats[k];
  }

  lemma OpenKeepsSeededAndTitles(p: Page, s: AppState, now: int)
    requires SeededChats(s.chats)
    ensures var r := Step(p, s, OpenChat(now)); SeededChats(r.chats) && TitlesKept(s, r, Some(ChatIdAt(now)))
  {
    CreateKeepsSeededAndTitles(s, if p == AsWired then ClickEvent else DefaultTitle, now);
  }

  lemma DeleteKeepsSeededAndTitles(s: AppState, id: Id, remaining: seq<Id>, now: int)
    requires SeededChats(s.chats)
    requires forall k :: k in remaining <==> k in s.chats && k != id
    ensures var r := Delete(s, id, remaining, now);
      SeededChats(r.chats) && TitlesKept(s, r, if s.chats.Keys == {id} then Some(ChatIdAt(now)) else None)
  {
  }

  lemma {:induction false} RegenKeepsSeededAndTitles(s: AppState)
    requires SeededChats(s.chats)
    ensures SeededChats(Regenerate(s).next.chats)
    ensures TitlesKept(s, Regenerate(s).next, None)
  {
    var t := Regenerate(s);
    if t.fetch {
      var k := LookupKey(s.activeChatId);
      var before := s.chats[k].messages;
      var after := t.next.chats[k].messages;
      assert after[0] == before[0];
      if HasUserMessage(before) {
        var i :| 0 <= i < |before| && before[i].role == User;
        if Last(before).role == Assistant {
          assert i < |before| - 1;
        }
        UserMessageKept(before, after, i);
      }
      ChangedOnlyAt(s, t.next, k);
    }
  }

  lemma {:induction false} EditKeepsSeededAndTitles(s: AppState, chatId: Id, index: nat, input: string, now: int)
    requires SeededChats(s.chats)
    requires Allowed(s, EditMessage(chatId, index, input, now))
    ensures SeededChats(Edit(s, chatId, index, input, now).next.chats)
    ensures TitlesKept(s, Edit(s, chatId, index, input, now).next, None)
  {
    var t := Edit(s, chatId, index, input, now);
    if t.fetch {
      var before := s.chats[chatId].messages;
      var after := t.next.chats[chatId].messages;
      assert after[0] == after[..index][0] == before[..index][0] == before[0];
      assert after[index].role == User;
      UserMessageKept(after, after, index);
      ChangedOnlyAt(s, t.next, chatId);
    }
  }

  /**
   * Every action keeps the system prompt first in every conversation, and a
   * conversation holding a user message keeps its title unless the action
   * replaces it by creating a conversation under the same id.
   */
  lemma StepKeepsSeededAndTitles(p: Page, s: AppState, a: Action)
    requires Allowed(s, a) && SeededChats(s.chats)
    ensures SeededChats(Step(p, s, a).chats)
    ensures TitlesKept(s, Step(p, s, a), Created(s, a))
  {
    match a
    case OpenChat(now) => OpenKeepsSeededAndTitles(p, s, now);
    case SelectChat(_) =>
    case DeleteChat(id, remaining, now) => DeleteKeepsSeededAndTitles(s, id, remaining, now);
    case Send(input, now) => SendKeepsSeededAndTitles(s, input, now);
    case Reply(requester, o, now) => ReplyKeepsSeededAndTitles(p, s, requester, o, now);
    case Regen => RegenKeepsSeededAndTitles(s);
    case EditMessage(chatId, index, input, now) => EditKeepsSeededAndTitles(s, chatId, index, input, now);
  }

  lemma {:induction false} RunKeepsSeeded(p: Page, s: AppState, actions: seq<Action>)
    requires SeededChats(s.chats) && Feasible(p, s, actions)
    ensures SeededChats(Run(p, s, actions).chats)
    decreases |actions|
  {
    if actions != [] {
      StepKeepsSeededAndTitles(p, s, actions[0]);
      RunKeepsSeeded(p, Step(p, s, actions[0]), actions[1..]);
    }
  }

  /** None of the actions creates a conversation under `k`. */
  ghost predicate Spares(p: Page, s: AppState, actions: seq<Action>, k: Id)
    decreases |actions|
  {
    actions == [] || (Allowed(s, actions[0]) && Created(s, actions[0]) != Some(k) && Spares(p, Step(p, s, actions[0]), actions[1..], k))
  }

  /**
   * Over any run that never creates a conversation under `k`: no conversation
   * `k` appears that was not there, and one that held a user message keeps
   * its title for as long as it exists.
   */
  lemma {:induction false} RunKeepsTitle(p: Page, s: AppState, actions: seq<Action>, k: Id)
    requires SeededChats(s.chats) && Feasible(p, s, actions) && Spares(p, s, actions, k)
    ensures var r := Run(p, s, actions);
      && (k in r.chats ==> k in s.chats)
      && (k in s.chats && k in r.chats && HasUserMessage(s.chats[k].messages) ==>
            HasUserMessage(r.chats[k].messages) && r.chats[k].title == s.chats[k].title)
    decreases |actions|
  {
    if actions != [] {
      StepKeepsSeededAndTitles(p, s, actions[0]);
      RunKeepsTitle(p, Step(p, s, actions[0]), actions[1..], k);
    }
  }

  /** A session that starts from stored conversations beginning with the system prompt keeps them so. */
  lemma AlwaysSeeded(p: Page, stored: Stored, order: seq<Id>, now: int, actions: seq<Action>)
    requires KeyOrder(stored, order)
    requires WellShaped(stored) ==> SeededChats(stored.value.chats.m)
    requires Feasible(p, Load(stored, order, now), actions)
    ensures SeededChats(Run(p, Load(stored, order, now), actions).chats)
  {
    RunKeepsSeeded(p, Load(stored, order, now), actions);
  }

  /**
   * A first exchange from an empty store: a short question becomes the
   * title, and the conversation holds the prompt, the question and the answer,
   * modified when the answer arrived.
   */
  lemma FirstExchange(question: string, answer: string, t0: int, t1: int, t2: int)
    requires Trim(question) == question && question != [] && |question| <= TitleLength
    requires Trim(answer) == answer && answer != []
    ensures
      var s0 := Load(Nothing, [], t0);
      var id := ChatIdAt(t0);
      var s1 := Submit(s0, question, t1).next;
      var s2 := CompleteInto(s1, id, Done(Some(answer)), t2);
      && s2.chats[id].title == Text(question)
      && s2.chats[id].messages == [SeedMessage, Message(User, question, Some(t1)), Message(Assistant, answer, Some(t2))]
      && s2.chats[id].lastModified == t2
  {
    var s0 := Load(Nothing, [], t0);
    var id := ChatIdAt(t0);
    FreshStart(t0);
    FirstSend(s0, id, SeedMessage, question, t1);
    var s1 := Submit(s0, question, t1).next;
    ReplyLands(s1, id, SeedMessage, Message(User, question, Some(t1)), Done(Some(answer)), t2);
    assert ReplyText(Done(Some(answer))) == answer;
  }

  /** Start-up from an empty store points at one conversation holding only the system prompt. */
  lemma FreshStart(t0: int)
    ensures var s0 := Load(Nothing, [], t0);
      && s0.activeChatId == Some(ChatIdAt(t0))
      && ChatIdAt(t0) in s0.chats
      && s0.chats[ChatIdAt(t0)].messages == [SeedMessage]
  {
  }

  /** The first half of the exchange: the question is appended to a conversation holding no user message and titles it. */
  lemma FirstSend(s0: AppState, id: Id, m0: Message, question: string, t1: int)
    requires s0.activeChatId == Some(id) && id in s0.chats && id != ""
    requires s0.chats[id].messages == [m0] && m0.role != User
    requires Trim(question) == question && question != [] && |question| <= TitleLength
    ensures
      var s1 := Submit(s0, question, t1).next;
      && id in s1.chats
      && s1.chats[id].title == Text(question)
      && s1.chats[id].messages == [m0, Message(User, question, Some(t1))]
  {
    assert !HasUserMessage([m0]);
  }

  /** The second half: the reply to an outcome lands after the question in the asking conversation. */
  lemma ReplyLands(s1: AppState, id: Id, m0: Message, m1: Message, o: Outcome, t2: int)
    requires id in s1.chats && s1.chats[id].messages == [m0, m1]
    ensures
      var s2 := CompleteInto(s1, id, o, t2);
      && s2.chats[id].title == s1.chats[id].title
      && s2.chats[id].messages == [m0, m1, Message(Assistant, ReplyText(o), Some(t2))]
      && s2.chats[id].lastModified == t2
  {
    assert [m0, m1] + [Message(Assistant, ReplyText(o), Some(t2))] == [m0, m1, Message(Assistant, ReplyText(o), Some(t2))];
  }

  /**
   * As wired, a reply that arrives after the "New chat" button was clicked
   * lands in the new conversation, which then has something to export but a
   * click event for a title, so the export fails. The corrected button's
   * conversation exports in the same situation.
   */
  lemma DivertedReplyBlocksExport(s: AppState, requester: Id, o: Outcome, t1: int, t2: int, showTime: Option<int> -> string)
    ensures var r := Step(AsWired, Step(AsWired, s, OpenChat(t1)), Reply(requester, o, t2));
      && |r.chats[ChatIdAt(t1)].messages| == 2
      && ExportChat(r, showTime) == None
    ensures ExportChat(Step(AsWired, Step(Corrected, s, OpenChat(t1)), Reply(requester, o, t2)), showTime).Some?
  {
  }
}

=== FILE: session.dfy ===
/**
 * The session store's operations (script.js:43-186, 373-387): creating,
 * switching and deleting conversations, appending a message to the active
 * one, and restoring the state at start-up. The clock reading a handler takes
 * is a parameter `now`; the key order `Object.keys` would enumerate is a
 * parameter whenever the code depends on it.
 */
module Session {
  import opened Strings
  import opened State

  /** The id a conversation created at clock reading `now` receives: `chat-` followed by the reading in decimal. */
  function ChatIdAt(now: int): (id: Id)
    ensures |id| > 5 && id[..5] == "chat-"
  {
    "chat-" + IntToDecimal(now)
  }

  /** Conversations created at different clock readings get different ids. */
  lemma ChatIdAtInjective(a: int, b: int)
    requires ChatIdAt(a) == ChatIdAt(b)
    ensures a == b
  {
    assert ChatIdAt(a)[5..] == IntToDecimal(a);
    assert ChatIdAt(b)[5..] == IntToDecimal(b);
    IntToDecimalInjective(a, b);
  }

  /** A fresh conversation: only the system prompt, stamped with its creation time. */
  function NewChat(title: Title, now: int): Chat {
    Chat(ChatIdAt(now), title, [SeedMessage], now)
  }

  /** `createNewChat(title)`: adds one seeded conversation under a fresh id and makes it active. */
  function Create(s: AppState, title: Title, now: int): (r: AppState)
    ensures var id := ChatIdAt(now);
      && r.activeChatId == Some(id)
      && r.chats.Keys == s.chats.Keys + {id}
      && r.chats[id].id == id
      && r.chats[id].title == title
      && r.chats[id].messages == [SeedMessage]
      && r.chats[id].lastModified == now
      && (forall k :: k in s.chats && k != id ==> r.chats[k] == s.chats[k])
      && (id !in s.chats ==> |r.chats| == |s.chats| + 1)
    ensures Valid(r)
  {
    var c := NewChat(title, now);
    AppState(Some(c.id), s.chats[c.id := c])
  }

  /** `switchChat(id)`: moves `activeChatId` and nothing else; re-selecting the active conversation is a no-op. */
  function Switch(s: AppState, id: Id): (r: AppState)
    ensures r.activeChatId == Some(id) && r.chats == s.chats
    ensures s.activeChatId == Some(id) ==> r == s
    ensures Valid(r) <==> id in s.chats
  {
    if s.activeChatId == Some(id) then s else s.(activeChatId := Some(id))
  }

  predicate IsMostRecent(chats: map<Id, Chat>, k: Id) {
    k in chats && forall j :: j in chats ==> chats[j].lastModified <= chats[k].lastModified
  }

  /**
   * The head of `order` once stably sorted by `lastModified`, newest first: the
   * first position holding a maximal `lastModified`.
   */
  function MostRecentIndex(order: seq<Id>, chats: map<Id, Chat>): (i: nat)
    requires |order| > 0
    requires forall j :: 0 <= j < |order| ==> order[j] in chats
    ensures i < |order|
    ensures forall j :: 0 <= j < |order| ==> chats[order[j]].lastModified <= chats[order[i]].lastModified
    ensures forall j :: 0 <= j < i ==> chats[order[j]].lastModified < chats[order[i]].lastModified
    decreases |order|
  {
    if |order| == 1 then 0
    else
      var i := MostRecentIndex(order[..|order| - 1], chats);
      if chats[order[|order| - 1]].lastModified > chats[order[i]].lastModified then |order| - 1 else i
  }

  /** A key enumeration covers a map exactly when it is non-empty for a non-empty map. */
  lemma EnumerationNonEmpty(order: seq<Id>, m: map<Id, Chat>)
    requires forall k :: k in order <==> k in m
    ensures |order| > 0 <==> m != map[]
  {
    if |order| > 0 {
      assert order[0] in m;
    }
    if m != map[] {
      var k :| k in m;
      assert k in order;
    }
  }

  /**
   * `deleteChat(id)` once the user has confirmed: removes the conversation and
   * points at the most recently modified survivor, whether or not the deleted
   * one was active; with no survivor, a default conversation is created.
   * `remaining` is `Object.keys` of the map after the removal. An id that names
   * no conversation makes the confirmation prompt throw before anything changes.
   */
  function Delete(s: AppState, id: Id, remaining: seq<Id>, now: int): (r: AppState)
    requires forall k :: k in remaining <==> k in s.chats && k != id
    ensures id !in s.chats ==> r == s
    ensures id in s.chats && s.chats.Keys != {id} ==>
      && r.chats == s.chats - {id}
      && r.activeChatId.Some?
      && IsMostRecent(r.chats, r.activeChatId.value)
      && exists i :: 0 <= i < |remaining| && remaining[i] == r.activeChatId.value
           && forall j :: 0 <= j < i ==> r.chats[remaining[j]].lastModified < r.chats[remaining[i]].lastModified
    ensures s.chats.Keys == {id} ==>
      && r.chats == map[ChatIdAt(now) := NewChat(DefaultTitle, now)]
      && r.activeChatId == Some(ChatIdAt(now))
    ensures id in s.chats ==> Valid(r)
  {
    if id !in s.chats then s
    else
      var m := s.chats - {id};
      EnumerationNonEmpty(remaining, m);
      assert s.chats.Keys == {id} ==> m == map[];
      if |remaining| > 0 then
        var i := MostRecentIndex(remaining, m);
        assert forall j :: j in m ==> exists p :: 0 <= p < |remaining| && remaining[p] == j;
        AppState(Some(remaining[i]), m)
      else
        assert m.Keys == {};
        Create(AppState(s.activeChatId, m), DefaultTitle, now)
  }

  /**
   * Pushes a message stamped `now` onto the conversation at `k` and bumps its
   * `lastModified`; a key that names no conversation leaves the state as it is.
   */
  function AppendTo(s: AppState, k: Id, role: Role, content: string, now: int): (r: AppState)
    ensures k !in s.chats ==> r == s
    ensures k in s.chats ==>
      && r.activeChatId == s.activeChatId
      && OthersUnchanged(s, r, k)
      && r.chats[k].messages == s.chats[k].messages + [Message(role, content, Some(now))]
      && r.chats[k].lastModified == now
      && r.chats[k].id == s.chats[k].id
      && r.chats[k].title == s.chats[k].title
    ensures Valid(s) ==> Valid(r)
  {
    if k !in s.chats then s
    else
      var c := s.chats[k];
      s.(chats := s.chats[k := c.(messages := c.messages + [Message(role, content, Some(now))], lastModified := now)])
  }

  /**
   * `addMessageToChat(role, content)`: appends to whatever conversation the
   * `activeChatId` names when it runs; without one, nothing changes.
   */
  function AddMessage(s: AppState, role: Role, content: string, now: int): (r: AppState)
    ensures ActiveChat(s).None? ==> r == s
    ensures ActiveChat(s).Some? ==>
      var k := LookupKey(s.activeChatId);
      && r.activeChatId == s.activeChatId
      && OthersUnchanged(s, r, k)
      && r.chats[k].messages == s.chats[k].messages + [Message(role, content, Some(now))]
      && r.chats[k].lastModified == now
      && r.chats[k].title == s.chats[k].title
    ensures Valid(s) ==> Valid(r)
  {
    AppendTo(s, LookupKey(s.activeChatId), role, content, now)
  }

  /**
   * The "New chat" button as wired: `createNewChat` is bound directly as the
   * click handler, so it receives the click event as its title and the default is never used.
   */
  function NewChatFromButton(s: AppState, now: int): (r: AppState)
    ensures Valid(r) && r.chats[r.activeChatId.value].title == ClickEvent
    ensures r.chats[r.activeChatId.value].messages == [SeedMessage]
  {
    Create(s, ClickEvent, now)
  }

  /** The "New chat" button as intended: `createNewChat()` with its default title. */
  function NewChatFromButtonFixed(s: AppState, now: int): (r: AppState)
    ensures Valid(r) && r.chats[r.activeChatId.value].title == DefaultTitle
    ensures r.chats[r.activeChatId.value].messages == [SeedMessage]
  {
    Create(s, DefaultTitle, now)
  }

  /** As wired, a conversation opened from the button is not titled "New Conversation". */
  lemma ButtonTitleDiffersFromDefault(s: AppState, now: int)
    ensures NewChatFromButton(s, now).chats[ChatIdAt(now)].title != DefaultTitle
    ensures Shown(NewChatFromButton(s, now).chats[ChatIdAt(now)].title) == "[object Object]"
  {
  }

  /** What `chats` holds in parsed stored state: falsy or absent, a truthy non-object, or an object. */
  datatype ChatsField = NoChats | NotObject | Chats(m: map<Id, Chat>)

  /** A parsed stored value: falsy (null, false, 0, ""), a truthy primitive, or an object. */
  datatype Parsed = Falsy | Primitive | Object(activeChatId: Option<Id>, chats: ChatsField)

  /** What start-up finds in storage: nothing (or ""), text that does not parse, or a parsed value. */
  datatype Stored = Nothing | Corrupt | Json(value: Parsed)

  /** The stored value passes the structural check: an object whose `chats` is an object. */
  predicate WellShaped(stored: Stored) {
    stored.Json? && stored.value.Object? && stored.value.chats.Chats?
  }

  /** `order` is the `Object.keys` enumeration of the stored conversations. */
  ghost predicate KeyOrder(stored: Stored, order: seq<Id>) {
    WellShaped(stored) ==> forall k :: k in order <==> k in stored.value.chats.m
  }

  /**
   * The `try` block of `loadState`: anything but a well-shaped object resets
   * the state to empty; a well-shaped one is adopted, and a falsy or dangling
   * `activeChatId` is moved to the first stored key (null when there is none).
   */
  function Restore(stored: Stored, order: seq<Id>): (r: AppState)
    requires KeyOrder(stored, order)
    ensures !WellShaped(stored) ==> r == Empty
    ensures WellShaped(stored) ==>
      var a := stored.value.activeChatId;
      var m := stored.value.chats.m;
      && r.chats == m
      && (r.activeChatId.None? <==> m == map[])
      && (r.activeChatId.Some? ==> r.activeChatId.value in m)
      && (Truthy(a) && a.value in m ==> r.activeChatId == a)
      && (!(Truthy(a) && a.value in m) && m != map[] ==> r.activeChatId == Some(order[0]))
  {
    if !WellShaped(stored) then Empty
    else
      var p := stored.value;
      EnumerationNonEmpty(order, p.chats.m);
      if Truthy(p.activeChatId) && p.activeChatId.value in p.chats.m then
        AppState(p.activeChatId, p.chats.m)
      else
        AppState(if |order| > 0 then Some(order[0]) else None, p.chats.m)
  }

  /**
   * `loadState`: restores the stored state, then seeds a "Welcome Chat" when
   * `activeChatId` is still falsy or no conversation exists. Whatever was stored,
   * the result has a conversation and a truthy `activeChatId` naming one.
   */
  function Load(stored: Stored, order: seq<Id>, now: int): (r: AppState)
    requires KeyOrder(stored, order)
    ensures Valid(r) && Truthy(r.activeChatId)
    ensures !WellShaped(stored) ==>
      && r.chats == map[ChatIdAt(now) := NewChat(WelcomeTitle, now)]
      && r.activeChatId == Some(ChatIdAt(now))
    ensures WellShaped(stored) ==>
      forall k :: k in stored.value.chats.m && k != ChatIdAt(now) ==> k in r.chats && r.chats[k] == stored.value.chats.m[k]
    ensures Truthy(Restore(stored, order).activeChatId) ==> r == Restore(stored, order)
    ensures !Truthy(Restore(stored, order).activeChatId) ==>
      && r.chats == Restore(stored, order).chats[ChatIdAt(now) := NewChat(WelcomeTitle, now)]
      && r.activeChatId == Some(ChatIdAt(now))
  {
    var restored := Restore(stored, order);
    if !Truthy(restored.activeChatId) || restored.chats == map[] then
      Create(restored, WelcomeTitle, now)
    else
      restored
  }

  /**
   * The names a plain object inherits from `Object.prototype`. Reading any of
   * them from the parsed `chats` object gives a truthy value (a function, or
   * the prototype itself for `__proto__`) although no conversation has that key.
   */
  const InheritedNames: set<Id> := {
    "constructor", "hasOwnProperty", "isPrototypeOf", "propertyIsEnumerable",
    "toLocaleString", "toString", "valueOf", "__proto__",
    "__defineGetter__", "__defineSetter__", "__lookupGetter__", "__lookupSetter__"
  }

  /** The dangling-id test as written: reading key `k` from the parsed conversations gives a truthy value for own keys and inherited names alike. */
  predicate PropertyTruthy(m: map<Id, Chat>, k: Id) {
    k in m || k in InheritedNames
  }

  /**
   * The `try` block of `loadState` as written: the stored `activeChatId` is
   * kept whenever the property read succeeds, which includes inherited names.
   */
  function RestoreAsWritten(stored: Stored, order: seq<Id>): (r: AppState)
    requires KeyOrder(stored, order)
    ensures !WellShaped(stored) ==> r == Empty
    ensures WellShaped(stored) ==>
      var a := stored.value.activeChatId;
      var m := stored.value.chats.m;
      && r.chats == m
      && (Truthy(a) && PropertyTruthy(m, a.value) ==> r.activeChatId == a)
      && (!(Truthy(a) && PropertyTruthy(m, a.value)) && m != map[] ==> r.activeChatId == Some(order[0]))
  {
    if !WellShaped(stored) then Empty
    else
      var p := stored.value;
      EnumerationNonEmpty(order, p.chats.m);
      if Truthy(p.activeChatId) && PropertyTruthy(p.chats.m, p.activeChatId.value) then
        AppState(p.activeChatId, p.chats.m)
      else
        AppState(if |order| > 0 then Some(order[0]) else None, p.chats.m)
  }

  /** `loadState` as written, on top of `RestoreAsWritten`. */
  function LoadAsWritten(stored: Stored, order: seq<Id>, now: int): (r: AppState)
    requires KeyOrder(stored, order)
    ensures Truthy(r.activeChatId)
    ensures Truthy(RestoreAsWritten(stored, order).activeChatId) && RestoreAsWritten(stored, order).chats != map[] ==>
      r == RestoreAsWritten(stored, order)
  {
    var restored := RestoreAsWritten(stored, order);
    if !Truthy(restored.activeChatId) || restored.chats == map[] then
      Create(restored, WelcomeTitle, now)
    else
      restored
  }

  /**
   * As written, a stored `activeChatId` of "constructor" next to any stored
   * conversation survives start-up although it names none of them, so the
   * session starts without a valid active conversation.
   */
  lemma InheritedIdSurvivesLoad(m: map<Id, Chat>, order: seq<Id>, now: int)
    requires m != map[] && "constructor" !in m
    requires forall k :: k in order <==> k in m
    ensures var stored := Json(Object(Some("constructor"), Chats(m)));
      && LoadAsWritten(stored, order, now).activeChatId == Some("constructor")
      && !Valid(LoadAsWritten(stored, order, now))
  {
    assert "constructor" in InheritedNames;
  }

  /** With the own-key test, the same stored value starts on its first stored conversation instead. */
  lemma OwnKeyTestRepairsInheritedId(m: map<Id, Chat>, order: seq<Id>, now: int)
    requires m != map[] && "constructor" !in m
    requires forall k :: k in order <==> k in m
    requires |order| > 0 && order[0] != ""
    ensures var stored := Json(Object(Some("constructor"), Chats(m)));
      && Load(stored, order, now).activeChatId == Some(order[0])
      && Valid(Load(stored, order, now))
  {
    EnumerationNonEmpty(order, m);
  }

  /**
   * The stored state names, as its active conversation, a name inherited from
   * `Object.prototype` that is not one of its keys, next to stored conversations.
   */
  predicate HoldsInheritedId(stored: Stored) {
    && WellShaped(stored)
    && stored.value.activeChatId.Some?
    && stored.value.activeChatId.value !in stored.value.chats.m
    && stored.value.activeChatId.value in InheritedNames
    && stored.value.chats.m != map[]
  }

  /** Start-up as written differs from the corrected one only on stored state holding an inherited id. */
  lemma LoadAsWrittenAgrees(stored: Stored, order: seq<Id>, now: int)
    requires KeyOrder(stored, order) && !HoldsInheritedId(stored)
    ensures LoadAsWritten(stored, order, now) == Load(stored, order, now)
  {
  }

  /** Start-up as written yields a valid session exactly when the stored state holds no inherited id. */
  lemma LoadAsWrittenValidIff(stored: Stored, order: seq<Id>, now: int)
    requires KeyOrder(stored, order)
    ensures Valid(LoadAsWritten(stored, order, now)) <==> !HoldsInheritedId(stored)
  {
    if !HoldsInheritedId(stored) {
      LoadAsWrittenAgrees(stored, order, now);
    }
  }

  /** Persisting a state: `JSON.stringify` then `JSON.parse` give back the same object. */
  function Save(s: AppState): Stored {
    Json(Object(s.activeChatId, Chats(s.chats)))
  }

  /** Saving a state whose `activeChatId` is truthy and names a conversation, then loading it, gives it back. */
  lemma SaveLoadRoundTrip(s: AppState, order: seq<Id>, now: int)
    requires Valid(s) && Truthy(s.activeChatId)
    requires forall k :: k in order <==> k in s.chats
    ensures Load(Save(s), order, now) == s
  {
    assert Restore(Save(s), order) == s;
  }

  /**
   * A conversation stored under the empty key can be active, but the empty id
   * is falsy, so reloading moves `activeChatId` to the first key (or, when
   * that is the empty key too, to a new "Welcome Chat").
   */
  lemma EmptyActiveIdMovesOnReload(s: AppState, order: seq<Id>, now: int)
    requires s.activeChatId == Some("") && "" in s.chats
    requires forall k :: k in order <==> k in s.chats
    ensures Valid(s) && Load(Save(s), order, now) != s
    ensures order[0] != "" ==> Load(Save(s), order, now) == s.(activeChatId := Some(order[0]))
  {
    EnumerationNonEmpty(order, s.chats);
  }

  /** Loading what a load produced changes nothing, whatever the clock says the second time. */
  lemma LoadIdempotent(stored: Stored, order: seq<Id>, now: int, order': seq<Id>, later: int)
    requires KeyOrder(stored, order)
    requires forall k :: k in order' <==> k in Load(stored, order, now).chats
    ensures Load(Save(Load(stored, order, now)), order', later) == Load(stored, order, now)
  {
    SaveLoadRoundTrip(Load(stored, order, now), order', later);
  }
}

=== FILE: state.dfy ===
/**
 * The application state of the chat client: a map of conversations keyed by
 * id and the id of the active one. Values are immutable; every operation
 * of the session is a function from one state to the next.
 */
module State {

  datatype Option<+T> = None | Some(value: T)

  /** A conversation key, as created `chat-<milliseconds>` or as found in stored state. */
  type Id = string

  datatype Role = System | User | Assistant

  /** One turn. The seeded system prompt carries no timestamp; every appended or edited turn does. */
  datatype Message = Message(role: Role, content: string, timestamp: Option<int>)

  /**
   * A conversation's title: text, or the click event the "New chat" button
   * passes in place of one. Shown, the event reads as "[object Object]"; as an
   * object it has none of the string methods the file name is built with.
   */
  datatype Title = Text(text: string) | ClickEvent

  datatype Chat = Chat(id: Id, title: Title, messages: seq<Message>, lastModified: int)

  /** `{activeChatId, chats}`: `None` stands for a null `activeChatId`. */
  datatype AppState = AppState(activeChatId: Option<Id>, chats: map<Id, Chat>)

  const SystemPrompt: string :=
    "You are a helpful and friendly assistant. Provide concise and helpful answers, formatting your responses in Markdown. For code, use appropriate language identifiers in code fences."

  const DefaultTitle: Title := Text("New Conversation")

  const WelcomeTitle: Title := Text("Welcome Chat")

  /** The state the client starts from and resets to. */
  const Empty: AppState := AppState(None, map[])

  /** The one message every new conversation starts with. */
  const SeedMessage: Message := Message(System, SystemPrompt, None)

  /** JavaScript truthiness of `activeChatId`: null and the empty string are both false. */
  predicate Truthy(active: Option<Id>) {
    active.Some? && active.value != ""
  }

  /** The key a lookup by `activeChatId` reads: a null `activeChatId` is coerced to the key "null". */
  function LookupKey(active: Option<Id>): Id {
    match active
    case None => "null"
    case Some(id) => id
  }

  /** The conversation the active id names, if any. */
  function ActiveChat(s: AppState): Option<Chat> {
    var k := LookupKey(s.activeChatId);
    if k in s.chats then Some(s.chats[k]) else None
  }

  /** The session invariant: `activeChatId` is set and names an existing conversation (so at least one exists). */
  predicate Valid(s: AppState) {
    s.activeChatId.Some? && s.activeChatId.value in s.chats
  }

  /** The text a title shows as, in the sidebar and in a template literal. */
  function Shown(t: Title): string {
    match t
    case Text(s) => s
    case ClickEvent => "[object Object]"
  }

  predicate HasUserMessage(msgs: seq<Message>) {
    exists i :: 0 <= i < |msgs| && msgs[i].role == User
  }

  /** Every conversation except the one at `k` is the same in `s` and `r`, and no key is added or removed. */
  predicate OthersUnchanged(s: AppState, r: AppState, k: Id) {
    && r.chats.Keys == s.chats.Keys
    && forall j :: j in s.chats && j != k ==> r.chats[j] == s.chats[j]
  }
}

=== FILE: strings.dfy ===
/**
 * Text primitives the conversation logic relies on, each stated with the
 * meaning of the JavaScript built-in it stands for: the white-space class
 * shared by `String.prototype.trim` and the regular-expression class `\s`,
 * trimming, ASCII lower-casing, and the decimal rendering of an integer inside
 * a template literal.
 */
module Strings {

  /** White space and line terminators as JavaScript defines them (the set `trim` strips and `\s` matches). */
  predicate IsSpace(c: char) {
    || c == '\t' || c == '\n' || c == '\U{B}' || c == '\U{C}' || c == '\r' || c == ' '
    || c == '\U{A0}' || c == '\U{1680}' || ('\U{2000}' <= c <= '\U{200A}')
    || c == '\U{2028}' || c == '\U{2029}' || c == '\U{202F}' || c == '\U{205F}'
    || c == '\U{3000}' || c == '\U{FEFF}'
  }

  predicate AllSpace(s: string) {
    forall i :: 0 <= i < |s| ==> IsSpace(s[i])
  }

  /** The end of the run of white space that starts at `i`. */
  function SpaceRunEnd(s: string, i: nat): (j: nat)
    requires i <= |s|
    ensures i <= j <= |s|
    ensures forall k :: i <= k < j ==> IsSpace(s[k])
    ensures j == |s| || !IsSpace(s[j])
    decreases |s| - i
  {
    if i < |s| && IsSpace(s[i]) then SpaceRunEnd(s, i + 1) else i
  }

  /** The start of the run of white space that ends at `j`. */
  function SpaceRunStart(s: string, j: nat): (i: nat)
    requires j <= |s|
    ensures i <= j
    ensures forall k :: i <= k < j ==> IsSpace(s[k])
    ensures i == 0 || !IsSpace(s[i - 1])
  {
    if j > 0 && IsSpace(s[j - 1]) then SpaceRunStart(s, j - 1) else j
  }

  /** Drops the leading white space: what is left is a suffix that starts with a non-space. */
  function TrimStart(s: string): (r: string)
    ensures |r| <= |s| && r == s[|s| - |r|..]
    ensures AllSpace(s[..|s| - |r|])
    ensures r == [] || !IsSpace(r[0])
  {
    var i := SpaceRunEnd(s, 0);
    assert forall k :: 0 <= k < i ==> s[..i][k] == s[k];
    s[i..]
  }

  /** Leading white space that ends at `i` is exactly what `TrimStart` drops. */
  lemma TrimStartAt(s: string, i: nat)
    requires i <= |s| && AllSpace(s[..i])
    requires i == |s| || !IsSpace(s[i])
    ensures TrimStart(s) == s[i..]
  {
  }

  /** Drops the trailing white space: what is left is a prefix that ends with a non-space. */
  function TrimEnd(s: string): (r: string)
    ensures |r| <= |s| && r == s[..|r|]
    ensures AllSpace(s[|r|..])
    ensures r == [] || !IsSpace(r[|r| - 1])
  {
    var j := SpaceRunStart(s, |s|);
    assert forall k :: 0 <= k < |s| - j ==> s[j..][k] == s[j + k];
    s[..j]
  }

  /** `String.prototype.trim`: white space removed from both ends. */
  function Trim(s: string): (r: string)
    ensures |r| <= |s|
    ensures r == [] || (!IsSpace(r[0]) && !IsSpace(r[|r| - 1]))
  {
    TrimEnd(TrimStart(s))
  }

  /** A prefix of a suffix is an infix, and what follows it is a suffix of the whole. */
  lemma InfixOfSuffix(s: string, t: string, r: string)
    requires |t| <= |s| && t == s[|s| - |t|..]
    requires |r| <= |t| && r == t[..|r|]
    ensures s[|s| - |t|..|s| - |t| + |r|] == r
    ensures s[|s| - |t| + |r|..] == t[|r|..]
  {
  }

  /**
   * What trimming keeps is the infix starting after the leading white space,
   * and everything around it is white space.
   */
  lemma TrimIsInfix(s: string)
    ensures var r := Trim(s); var i := |s| - |TrimStart(s)|;
      && i + |r| <= |s|
      && s[i..i + |r|] == r
      && AllSpace(s[..i])
      && AllSpace(s[i + |r|..])
  {
    InfixOfSuffix(s, TrimStart(s), TrimEnd(TrimStart(s)));
  }

  /** Text with no white space at either end is left as it is by both halves of trimming. */
  lemma TrimmedIsFixed(r: string)
    requires r == [] || (!IsSpace(r[0]) && !IsSpace(r[|r| - 1]))
    ensures TrimStart(r) == r && TrimEnd(r) == r
  {
    assert SpaceRunEnd(r, 0) == 0;
    assert r[0..] == r;
    assert SpaceRunStart(r, |r|) == |r|;
    assert r[..|r|] == r;
  }

  /** Trimming twice is trimming once. */
  lemma TrimIdempotent(s: string)
    ensures Trim(Trim(s)) == Trim(s)
  {
    TrimmedIsFixed(Trim(s));
  }

  /** Trimming leaves nothing exactly when the text is all white space. */
  lemma TrimEmptyIff(s: string)
    ensures Trim(s) == [] <==> AllSpace(s)
  {
    var i := SpaceRunEnd(s, 0);
    var t := TrimStart(s);
    assert t == s[i..];
    if AllSpace(s) {
      assert i == |s|;
    }
    if Trim(s) == [] {
      assert AllSpace(t[0..]);
    }
  }

  /** A character of the regular-expression class `\w` (no `u` flag): ASCII letters, digits and `_`. */
  predicate IsWordChar(c: char) {
    ('a' <= c <= 'z') || ('A' <= c <= 'Z') || ('0' <= c <= '9') || c == '_'
  }

  /** `toLowerCase` on one character, for the ASCII range (the only letters a file stem can hold). */
  function LowerChar(c: char): (l: char)
    ensures 'A' <= c <= 'Z' ==> 'a' <= l <= 'z' && l as int - c as int == 'a' as int - 'A' as int
    ensures !('A' <= c <= 'Z') ==> l == c
  {
    if 'A' <= c <= 'Z' then (c as int - 'A' as int + 'a' as int) as char else c
  }

  function LowerAll(s: string): (r: string)
    ensures |r| == |s|
    ensures forall i :: 0 <= i < |s| ==> r[i] == LowerChar(s[i])
  {
    seq(|s|, i requires 0 <= i < |s| => LowerChar(s[i]))
  }

  predicate IsDigit(c: char) {
    '0' <= c <= '9'
  }

  predicate AllDigits(s: string) {
    forall i :: 0 <= i < |s| ==> IsDigit(s[i])
  }

  function DigitChar(d: nat): (c: char)
    requires d < 10
    ensures IsDigit(c) && c as int - '0' as int == d
  {
    ('0' as int + d) as char
  }

  /** The decimal numeral of `n`, with no leading zero. */
  function NatToDecimal(n: nat): (s: string)
    ensures |s| > 0 && AllDigits(s)
    ensures s[0] == '0' ==> n == 0
    decreases n
  {
    if n < 10 then [DigitChar(n)] else NatToDecimal(n / 10) + [DigitChar(n % 10)]
  }

  /** The value a string of decimal digits denotes. */
  function DecimalValue(s: string): nat
    requires AllDigits(s)
  {
    if s == [] then 0 else DecimalValue(s[..|s| - 1]) * 10 + (s[|s| - 1] as int - '0' as int)
  }

  lemma {:induction false} DecimalRoundTrip(n: nat)
    ensures DecimalValue(NatToDecimal(n)) == n
    decreases n
  {
    if n >= 10 {
      var s := NatToDecimal(n);
      assert s[..|s| - 1] == NatToDecimal(n / 10);
      DecimalRoundTrip(n / 10);
    }
  }

  /** How a template literal renders an integer: an optional minus sign, then the numeral of its magnitude. */
  function IntToDecimal(i: int): (s: string)
    ensures |s| > 0
    ensures s[0] == '-' <==> i < 0
  {
    if i < 0 then "-" + NatToDecimal(-i) else NatToDecimal(i)
  }

  /** Different integers render differently. */
  lemma IntToDecimalInjective(a: int, b: int)
    requires IntToDecimal(a) == IntToDecimal(b)
    ensures a == b
  {
    if a < 0 {
      assert IntToDecimal(a)[1..] == NatToDecimal(-a);
      assert IntToDecimal(b)[1..] == NatToDecimal(-b);
      DecimalRoundTrip(-a);
      DecimalRoundTrip(-b);
    } else {
      DecimalRoundTrip(a);
      DecimalRoundTrip(b);
    }
  }
}
